=== FILE: README.md ===
# EMG scope: a Dafny model of the sample pipeline's bookkeeping

`EMG_Scope.py` is a desktop oscilloscope for an EMG sensor. An HM-10 BLE module
sends ADC readings as newline-separated decimal text. A notification handler
parses them into a list capped at the newest 10000 samples. A 100 ms timer
redraws a time plot, a spectrum and a spectrogram of the newest 0.8 s. A button
exports the same three plots of the newest 0.1 s to `emg_snapshot.png`.

This project models the discrete logic around that signal path:

- **Ingestion** (`Ingest`, helped by `Text` and `PySlice`):
  - `decode('utf-8')`, with decoding failure as an explicit payload case;
  - `strip()`, with Python's exact whitespace set;
  - `split('\n')`;
  - `isdigit()`, which also accepts the superscripts one, two and three;
  - `int()`, which rejects those superscripts and numerals of more than 4300 digits;
  - the `except` that abandons the rest of a payload.
- **The capped buffer** (`SampleBuffer`): append, then `emg_data[-10000:]`.
- **Window gating and selection** (`Window`): `int(1000 * 0.8)` and
  `int(1000 * 0.1)` samples, `emg_data[-window_size:]`, and `np.clip(…, 0, 1023)`.
- **Spectrum and spectrogram rules** (`Spectrum`):
  - the bins of `np.fft.rfftfreq`;
  - the `fft_vals[1:-1] *= 2` shaping, over abstract real magnitudes;
  - `nperseg = min(64, n)` and `noverlap = int(nperseg * 0.9)`.
- **The two plot routines** (`Plots`): what each computes from the buffer, up
  to the float signal path.
- **The session record** (`Session`):
  - the buffer, the timer flag and the BLE client;
  - connect, disconnect and notification events whose outcomes come from the
    radio as parameters.

The main results:

- **Parsing.** A payload appends, in order, the value of every line whose
  stripped text is a digit string. It stops at the first line `int()` rejects.
  Skipped lines affect nothing else. Every list of values whose numerals have
  at most 4300 digits survives the trip.
- **Trimming.** Trimming after each append equals trimming once after the
  batch. The buffer stays within 10000 non-negative values.
- **Recent history.** The buffer is always the newest 10000 values received
  since the last completed connection. This holds for the program as written
  and for the corrected disconnect alike, which differ only in the timer.
- **Windows.** Each view's window is exactly the newest 800 or 100 values. The
  cap never affects either view.
- **Spectrum shaping.** It is invertible. It agrees with the textbook one-sided
  spectrum exactly when the window length is even or 1, or the last magnitude
  is 0.
- **Segments.** The overlap is the floor of 90% of the segment, so the hop is
  at least 1.
- **Disconnect.** As written, a completed disconnect never stops the timer
  (see "Findings"). With the print corrected it does, and the timer then stays
  stopped until the next completed connection.

Three behaviours of the code that the model keeps as they are:

- **Zero-length window.** `emg_data[-0:]` selects the whole list, not an empty
  one. `Window.LatestWindow` with `w = 0` returns the whole buffer. The program
  itself only asks for 800 and 100 samples.
- **No locking.** The handler and the timer share the buffer without a lock.
  Both run on one qasync event loop, so a handler runs to completion before a
  tick. The model treats each event as atomic.
- **Last spectrum bin.** `fft_vals[1:-1] *= 2` never doubles the last bin. For
  an odd window length that bin has a mirror image, so the result differs from
  the one-sided amplitude spectrum (`Spectrum.DoublingMatchesOneSided`). The
  program's windows, 800 and 100, are even, so this does not show.

## Model

| member | source | states |
|---|---|---|
| PySlice.Tail | EMG_Scope.py:231 | `s[-k:]` is the newest `k` elements when there are at least that many and the whole sequence otherwise, including for `k = 0` |
| PySlice.InteriorRange | EMG_Scope.py:257 | `[1:-1]` selects exactly positions 1 to len-2 for three or more elements, and nothing otherwise |
| Text.StripBounds | EMG_Scope.py:226-229 | `strip()` keeps one contiguous run of the text, removes only whitespace around it, and leaves no whitespace at its ends |
| Text.StripOfPadded | EMG_Scope.py:226-229 | whitespace put around a trimmed string is exactly what `strip()` removes |
| Text.StripIdempotent | EMG_Scope.py:228-229 | stripping an already stripped line changes nothing |
| Text.Split | EMG_Scope.py:226 | `split('\n')` yields at least one piece, none holding a newline, and joining the pieces with newlines gives the text back |
| Text.SplitJoin | EMG_Scope.py:226 | splitting a newline-join of newline-free pieces gives the pieces back |
| Text.DecimalString | EMG_Scope.py:229 | every natural number has a canonical numeral without superfluous leading zeros that `int()` reads back as the number |
| Text.DecimalStringOfValue | EMG_Scope.py:229 | a numeral without superfluous leading zeros is the canonical numeral of the value `int()` reads from it |
| Text.DecimalValueLeadingZeros | EMG_Scope.py:229 | leading zeros do not change the value `int()` reads |
| SampleBuffer.PushDropsOldest | EMG_Scope.py:229-231 | on a buffer of at most 10000 values, an append puts the new value last; the buffer grows by one until it holds 10000, and from then on loses exactly its oldest value |
| SampleBuffer.TailIsRetained | EMG_Scope.py:231 | `emg_data[-10000:]` is the newest `min(10000, len)` values in arrival order |
| SampleBuffer.RetainedOfRetained | EMG_Scope.py:230-231 | trimming early never loses a value that trimming later would keep |
| SampleBuffer.AppendAllRetainsNewest | EMG_Scope.py:227-231 | trimming after every append equals trimming once after the batch; an empty batch leaves even an over-long list untouched |
| SampleBuffer.AppendAllSnoc | EMG_Scope.py:227-231 | one more value in a batch is one more append-and-trim at the end |
| SampleBuffer.AppendAllKeepsBounds | EMG_Scope.py:227-231 | the buffer never exceeds 10000 values and holds no negative value |
| SampleBuffer.AppendedTwice | EMG_Scope.py:227-231 | appending two batches one after the other equals appending both at once |
| Ingest.ClassifyMeaning | EMG_Scope.py:228-229 | with its leading and trailing whitespace cut off, a line is skipped when the rest is not a digit string, raises when it holds a superscript digit or more than 4300 digits, and otherwise appends the decimal number it spells |
| Ingest.ClassifyPadded | EMG_Scope.py:228-229 | a decimal numeral of at most 4300 digits, however padded with whitespace, is appended as its value |
| Ingest.ClassifyNumeral | EMG_Scope.py:228-229 | the numeral `str(n)` with any whitespace around it is read back as `n` |
| Ingest.ClassifyZeroPadded | EMG_Scope.py:228-229 | a numeral with leading zeros is read as the number without them |
| Ingest.ForeignCharSkips | EMG_Scope.py:228 | a line containing a non-space, non-digit character (a sign, a point, a letter) is skipped |
| Ingest.BlankLineSkips | EMG_Scope.py:228 | an empty or all-whitespace line is skipped |
| Ingest.AcceptedUpToFirstRaise | EMG_Scope.py:227-233 | the handler appends, in order, each line's own contribution for every line before the first one `int()` rejects, and nothing from that line on |
| Ingest.AcceptedConcat | EMG_Scope.py:227-229 | lines in front of a batch that raise nothing contribute independently of what follows |
| Ingest.AcceptedSnoc | EMG_Scope.py:227-229 | a line that does not raise adds its own contribution at the end |
| Ingest.RaiseAbandonsRest | EMG_Scope.py:229-233 | the first line `int()` rejects ends the handler: it and every later line append nothing |
| Ingest.SkippedLineIsInvisible | EMG_Scope.py:228 | a skipped line has no effect on the lines after it, wherever it stands |
| Ingest.NotifyRetainsNewest | EMG_Scope.py:224-233 | after a notification the buffer is the newest 10000 of old buffer plus ingested values, or unchanged if nothing was ingested |
| Ingest.HandleNotification | EMG_Scope.py:224-233 | the handler's loop leaves the buffer equal to the newest 10000 of old buffer plus ingested values, and an undecodable or empty payload leaves it unchanged |
| Ingest.AppendLines | EMG_Scope.py:227-233 | the loop over the lines appends exactly the accepted values, trimming after each |
| Ingest.AppendSample | EMG_Scope.py:229-231 | one append followed by the conditional trim keeps the newest 10000 values |
| Ingest.IngestEncoded | EMG_Scope.py:224-229 | the newline-joined numerals of any list of values, each at most 4300 digits, are ingested as exactly that list |
| Ingest.LinesOfEncode | EMG_Scope.py:226 | the lines of an encoded non-empty list are its numerals |
| Ingest.EncodeTrimmed | EMG_Scope.py:226 | an encoded non-empty list begins and ends with a digit, so `strip()` leaves it alone |
| Ingest.AcceptedNumerals | EMG_Scope.py:227-229 | a list of numerals is accepted as the list of their values |
| Window.WindowSize | EMG_Scope.py:236 | `int(1000 * k)` for a factor of `k` tenths is the largest whole number of samples not above `k` tenths of a second's worth |
| Window.LiveWindowSize | EMG_Scope.py:236 | the live view's window is 800 samples |
| Window.ExportWindowSize | EMG_Scope.py:276 | the export's window is 100 samples |
| Window.LatestWindow | EMG_Scope.py:236-240 | no window while the buffer is shorter than `w`, otherwise exactly the newest `w` samples in order |
| Window.WindowSurvivesCap | EMG_Scope.py:231 | for any window up to 10000, the window of the capped buffer is the window of the whole history |
| Window.WindowOfLongBatch | EMG_Scope.py:240 | after a batch of at least `w` new samples, the window consists of that batch's newest `w` samples only |
| Window.Clip | EMG_Scope.py:241 | a clamped sample lies in [0, 1023], and a sample already in range is unchanged |
| Window.ClipIsNearest | EMG_Scope.py:241 | the clamp moves a sample to the nearest value in [0, 1023] |
| Window.ClipMonotone | EMG_Scope.py:241 | the clamp preserves the order of samples |
| Window.ClipAll | EMG_Scope.py:241 | clamping a window keeps its length and works sample by sample: in-range samples stay, negative ones become 0, ones above 1023 become 1023 |
| Window.ClipAllIdentity | EMG_Scope.py:241 | clamping changes a window exactly when some sample lies outside [0, 1023] |
| Window.ClipAllIdempotent | EMG_Scope.py:241 | clamping twice is clamping once |
| Spectrum.BinFrequencies | EMG_Scope.py:255 | a length-`n` signal has `n/2 + 1` bins, and bin `i` lies at `i * fs / n` |
| Spectrum.FrequencyAxis | EMG_Scope.py:255 | the bins start at 0 Hz, are `fs/n` apart, and end at or below `fs/2`, reaching it exactly for even `n` |
| Spectrum.NyquistBin | EMG_Scope.py:255 | the last bin is `fs/2` for even `n` and below it for odd `n` |
| Spectrum.DoubleInterior | EMG_Scope.py:257 | the first and last values are unchanged and every value strictly between them is doubled |
| Spectrum.DoublingInvertible | EMG_Scope.py:257 | halving the interior undoes the shaping exactly |
| Spectrum.DoublingMatchesOneSided | EMG_Scope.py:255-257 | the shaping equals the one-sided amplitude spectrum exactly when `n` is even or 1, or the last magnitude is 0 |
| Spectrum.Amplitudes | EMG_Scope.py:256-257 | the first and last amplitudes are the magnitudes over `n`, the others twice that |
| Spectrum.SegmentParamsFor | EMG_Scope.py:268-269 | for `n >= 1`, the segment length is in [1, 64] and at most `n`, and the overlap is below it; it is `(64, 57)` once `n >= 64` |
| Spectrum.OverlapIsNinetyPercent | EMG_Scope.py:269 | the overlap is the floor of 90% of the segment, and the hop is the ceiling of 10% of it, at least 1 |
| Plots.TimeAxis | EMG_Scope.py:246 | one time per sample, sample `i` at `i / fs` seconds |
| Plots.TimeAxisSpacing | EMG_Scope.py:246 | the times start at 0, are `1/fs` apart and stay below the window's duration |
| Plots.Analyse | EMG_Scope.py:240-270 | the derived data keeps the window; sample `i` of the clamped data is the clamp of sample `i`; sample `i` lies at `i / 1000` s; there are `n/2 + 1` bins with bin `i` at `i * 1000 / n` Hz; the segment is at least 1 and at most `n` long with a shorter overlap |
| Plots.UpdatePlots | EMG_Scope.py:235-270 | the live view draws nothing below 800 samples, and otherwise the newest 800 with 401 bins and segments (64, 57) |
| Plots.SaveAllPlots | EMG_Scope.py:275-309 | the export writes nothing below 100 samples, and otherwise `emg_snapshot.png` from the newest 100 with 51 bins and segments (64, 57) |
| Plots.ViewsIgnoreCap | EMG_Scope.py:230-240 | neither view can tell the capped buffer from the whole history |
| Plots.ExportWithinLiveView | EMG_Scope.py:236-240 | whenever the live view draws an export succeeds, and its window is the last 100 samples of the live window |
| Session.Initial | EMG_Scope.py:26-29 | the application starts with an empty buffer and a stopped timer |
| Session.Connect | EMG_Scope.py:196-213 | a completed connection empties the buffer and starts the timer; a failed one changes neither |
| Session.DisconnectAsWritten | EMG_Scope.py:215-222 | as written: a completed disconnect of a connected client marks it disconnected but leaves the timer as it was; without a connected client nothing changes; the buffer is kept |
| Session.Disconnect | EMG_Scope.py:215-222 | as intended: a completed disconnect of a connected client also stops the timer; a raising one keeps the timer as it was; without a connected client nothing changes; the buffer is kept |
| Session.DisconnectDiscrepancy | EMG_Scope.py:218-220 | on a completed disconnect while the timer runs, the code as written keeps the timer running and the intended version stops it |
| Session.Receive | EMG_Scope.py:224-233 | a notification changes only the buffer |
| Session.Tick | EMG_Scope.py:29-30 | the live view draws only while the timer runs, and then exactly when 800 samples are present |
| Session.Export | EMG_Scope.py:275-279 | the export succeeds exactly when 100 samples are present |
| Session.StepFrame | EMG_Scope.py:196-233 | only a notification or a completed connection touches the buffer; a completed connection empties it and starts the timer; a notification changes nothing but the buffer, which becomes the handler's result |
| Session.StepPreservesValid | EMG_Scope.py:224-233 | one event keeps the buffer within 10000 non-negative values |
| Session.RunPreservesValid | EMG_Scope.py:224-233 | with the corrected disconnect, in every reachable state the buffer holds at most 10000 values, none negative |
| Session.BufferIsRecentHistory | EMG_Scope.py:208-231 | with the corrected disconnect, the buffer is the newest 10000 values received since the last completed connection, in arrival order |
| Session.AsWrittenAgrees | EMG_Scope.py:215-222 | the program as written reaches the same buffer and client state as the corrected one after any events, and its timer runs whenever the corrected one's does |
| Session.RunAsWrittenPreservesValid | EMG_Scope.py:224-233 | as written, every reachable buffer holds at most 10000 values, none negative |
| Session.BufferIsRecentHistoryAsWritten | EMG_Scope.py:208-231 | as written, the buffer is the newest 10000 values received since the last completed connection, in arrival order |
| Session.TimerNeedsConnectAsWritten | EMG_Scope.py:208-222 | as written, the timer runs only if it already did or some connection was completed |
| Session.NoLiveViewBeforeConnectAsWritten | EMG_Scope.py:208-209 | as written, from start-up the live view never draws before the first completed connection |
| Session.TimerNeverStopsAsWritten | EMG_Scope.py:208-222 | as written, once the timer runs, no sequence of connects, disconnects and notifications stops it |
| Session.DisconnectStopsTimer | EMG_Scope.py:218-220 | as intended, after a completed disconnect the timer stays stopped until a connection completes |
| Session.TimerNeedsConnect | EMG_Scope.py:208-220 | with the corrected disconnect, the timer runs only if it already did or some connection was completed |
| Session.NoLiveViewBeforeConnect | EMG_Scope.py:208-209 | with the corrected disconnect, from start-up, the live view never draws before the first completed connection |

## Left out

- BLE scanning, the device-name match (`"BT05"` or `"HMSoft"`) and the
  transport. They are I/O: the outcome of a connect or disconnect attempt is a
  parameter of the session events, and notifications arrive as payloads.
- UTF-8 decoding is not modelled byte by byte. A payload is either decoded text
  or a decoding failure, which appends nothing.
- `str.isdigit` is exact only below U+0100. There it accepts the ASCII digits
  and the superscripts one, two and three. The model treats every code point
  from U+0100 up as a non-digit. Python also accepts other Unicode digits, and
  `int()` reads decimal ones (Arabic-Indic, fullwidth, …) as numbers; the model
  skips such lines.
- The 4300-digit limit of `int()` is the CPython default from 3.11 on and in
  the security releases 3.10.7, 3.9.14, 3.8.14 and 3.7.14. It is configurable
  (`sys.set_int_max_str_digits`, `PYTHONINTMAXSTRDIGITS`). Earlier releases
  have no limit.
- The Qt interface, the page animation, the qasync event loop and the timer's
  100 ms period are UI and scheduling.
- Float arithmetic is left out:
  - the voltage scaling, mean removal, Butterworth design and `filtfilt`;
  - the FFT magnitudes, which are abstract reals;
  - the spectrogram's output and the drawing and saving of figures.

  `filtfilt` keeps the window length. It would reject windows of 27 samples or
  fewer, but the program's windows, 800 and 100, are far longer.
- Spectrum.BinFrequencies: frequencies are exact reals `i * fs / n`. NumPy
  computes them in floating point, which may differ in the last bits.
- Window.WindowSize: `int(1000 * 0.8)` and `int(1000 * 0.1)` are computed as
  exact integer arithmetic. The float products round to exactly 800.0 and
  100.0, so the values agree.
- Spectrum.SegmentParamsFor: `int(nperseg * 0.9)` is computed as
  `9 * nperseg / 10`. The float 0.9 lies just above 9/10, and the rounded
  product never falls below an integer it should reach. So the two agree for
  every `nperseg` up to 64.
- Session.Connect: a connect that raises replaces the client. Whether the new
  client counts as connected is a parameter, since it depends on which call
  raised.
- Prints are assumed to succeed, except the one at line 219. The other
  messages (lines 197, 201, 207, 211, 213, 222 and 233) hold real code points
  and encode under a UTF-8 stdout.
- Session.DisconnectAsWritten: assumes stdout is a text stream with its
  default `strict` or `surrogateescape` error handler. With no stdout
  (`pythonw`, where `sys.stdout` is `None`), or one set to `backslashreplace`
  or `surrogatepass` through `PYTHONIOENCODING`, the print succeeds and the
  timer does stop.

## Findings

| source | as written | input that shows it | evidently intended | confidence | as-written member | corrected member |
|---|---|---|---|---|---|---|
| EMG_Scope.py:219 | `print("\ud83d\udd0c Disconnected from HM-10")` starts with two lone surrogates, which stdout's default error handlers refuse. The print raises before `self.timer.stop()`, and the `except` swallows the error, so the timer keeps running | Disconnect pressed while connected, with `disconnect()` completing | `"\U0001F50C"` (the plug emoji), after which the timer stops | high; not executed | Session.DisconnectAsWritten, Session.TimerNeverStopsAsWritten | Session.Disconnect, Session.DisconnectStopsTimer |

=== FILE: buffer.dfy ===
/**
 * The sample list `emg_data`: values are appended one at a time and, whenever
 * the list grows past `Capacity`, it is cut back to its newest `Capacity`
 * values (`emg_data[-10000:]`).
 */
module SampleBuffer {
  import opened PySlice

  const Capacity: nat := 10000

  /** What `h[-10000:]` keeps of a list: its newest `Capacity` values, in arrival order. */
  function Retained(h: seq<int>): seq<int>
  {
    if |h| <= Capacity then h else h[|h| - Capacity..]
  }

  /**
   * One append of the handler: add `v`, then cut back to the newest `Capacity`
   * values only if the list is now too long.
   */
  function Push(buf: seq<int>, v: int): seq<int>
  {
    var b := buf + [v];
    if |b| > Capacity then b[|b| - Capacity..] else b
  }

  /** Trimming only when over capacity is the same as always keeping the newest `Capacity` values. */
  lemma PushRetains(buf: seq<int>, v: int)
    ensures Push(buf, v) == Retained(buf + [v])
  {
  }

  /**
   * Appending to a buffer within capacity puts the new value last; the buffer
   * grows by one until it is full, and from then on the oldest value drops out.
   */
  lemma PushDropsOldest(buf: seq<int>, v: int)
    requires |buf| <= Capacity
    ensures |Push(buf, v)| == if |buf| < Capacity then |buf| + 1 else Capacity
    ensures Push(buf, v)[|Push(buf, v)| - 1] == v
    ensures Push(buf, v)[..|Push(buf, v)| - 1] == buf[|buf| - (|Push(buf, v)| - 1)..]
  {
    var b := buf + [v];
    if |b| > Capacity {
      var r := b[1..];
      assert r[..|r| - 1] == buf[1..];
    } else {
      assert b[..|b| - 1] == buf;
    }
  }

  /** `h[-10000:]` is the reference definition above. */
  lemma TailIsRetained(h: seq<int>)
    ensures Tail(h, Capacity) == Retained(h)
  {
  }

  /** Trimming early loses nothing that trimming later would keep. */
  lemma RetainedOfRetained(h: seq<int>, vs: seq<int>)
    ensures Retained(Retained(h) + vs) == Retained(h + vs)
  {
    if |h| > Capacity {
      var x := h + vs;
      var y := x[|h| - Capacity..];
      assert Retained(h) + vs == y;
      assert y[|y| - Capacity..] == x[|x| - Capacity..];
    }
  }

  /** `buf` with `vs` appended and cut back to the newest `Capacity` values, if `vs` is not empty. */
  function Appended(buf: seq<int>, vs: seq<int>): seq<int>
  {
    if vs == [] then buf else Retained(buf + vs)
  }

  /** Appending two batches one after the other is appending both at once. */
  lemma {:induction false} AppendedTwice(buf: seq<int>, a: seq<int>, b: seq<int>)
    ensures Appended(Appended(buf, a), b) == Appended(buf, a + b)
  {
    if b == [] {
      assert a + b == a;
    } else if a != [] {
      assert buf + (a + b) == (buf + a) + b;
      RetainedOfRetained(buf + a, b);
    }
  }

  /** The handler's loop over a batch of values: one `Push` per value, in order. */
  function AppendAll(buf: seq<int>, vs: seq<int>): seq<int>
    decreases |vs|
  {
    if vs == [] then buf
    else AppendAll(Push(buf, vs[0]), vs[1..])
  }

  /**
   * Appending a batch one value at a time, trimming after each append, equals
   * appending the whole batch and trimming once. An empty batch touches nothing,
   * not even an over-long list.
   */
  lemma {:induction false} AppendAllRetainsNewest(buf: seq<int>, vs: seq<int>)
    ensures AppendAll(buf, vs) == Appended(buf, vs)
    decreases |vs|
  {
    if vs != [] {
      var b1 := Push(buf, vs[0]);
      var rest := vs[1..];
      assert AppendAll(buf, vs) == AppendAll(b1, rest);
      PushRetains(buf, vs[0]);
      AppendAllRetainsNewest(b1, rest);
      if rest == [] {
        assert buf + vs == buf + [vs[0]];
      } else {
        assert buf + vs == (buf + [vs[0]]) + rest;
        RetainedOfRetained(buf + [vs[0]], rest);
      }
    }
  }

  /** Appending one more value to a batch is one more `Push`. */
  lemma {:induction false} AppendAllSnoc(buf: seq<int>, vs: seq<int>, v: int)
    ensures AppendAll(buf, vs + [v]) == Push(AppendAll(buf, vs), v)
    decreases |vs|
  {
    if vs != [] {
      assert (vs + [v])[0] == vs[0];
      assert (vs + [v])[1..] == vs[1..] + [v];
      AppendAllSnoc(Push(buf, vs[0]), vs[1..], v);
    } else {
      assert [v][1..] == [];
    }
  }

  predicate NonNegative(s: seq<int>)
  {
    forall i :: 0 <= i < |s| ==> s[i] >= 0
  }

  /** The buffer never holds more than `Capacity` values, and holds no negative value if none arrive. */
  lemma AppendAllKeepsBounds(buf: seq<int>, vs: seq<int>)
    requires |buf| <= Capacity && NonNegative(buf) && NonNegative(vs)
    ensures |AppendAll(buf, vs)| <= Capacity
    ensures NonNegative(AppendAll(buf, vs))
  {
    AppendAllRetainsNewest(buf, vs);
    if vs != [] {
      var x := buf + vs;
      forall i | 0 <= i < |x|
        ensures x[i] >= 0
      {
        if i >= |buf| {
          assert x[i] == vs[i - |buf|];
        }
      }
      RetainedKeepsBounds(x);
    }
  }

  lemma RetainedKeepsBounds(h: seq<int>)
    requires NonNegative(h)
    ensures |Retained(h)| <= Capacity && NonNegative(Retained(h))
  {
    var r := Retained(h);
    assert forall i :: 0 <= i < |r| ==> r[i] == h[|h| - |r| + i];
  }
}

=== FILE: ingest.dfy ===
/**
 * The BLE notification handler: a payload is decoded as UTF-8, stripped, split
 * into lines, and every line whose stripped text is a digit string is read with
 * `int()` and appended to the sample buffer. Any exception ends the handler.
 */
module Ingest {
  import opened Text
  import opened SampleBuffer
  import opened PySlice

  /**
   * The default number of digits above which CPython refuses to convert a
   * string with `int()`, raising `ValueError`: the limit of CPython 3.11 and
   * later and of the security releases 3.10.7, 3.9.14, 3.8.14 and 3.7.14
   * (adjustable with `sys.set_int_max_str_digits`); earlier releases have none.
   */
  const IntMaxStrDigits: nat := 4300

  /** What one line contributes: nothing, one sample, or an exception raised by `int()`. */
  datatype LineOutcome = Skip | Sample(value: nat) | Raise

  /**
   * What `isdigit()` and `int()` make of a line that has already been stripped:
   * a non-digit string is skipped, and a digit string that `int()` cannot read
   * (one holding a superscript digit, or too many digits) raises.
   */
  function ClassifyStripped(t: string): LineOutcome
  {
    if !IsDigitString(t) then Skip
    else if !AllAsciiDigits(t) || |t| > IntMaxStrDigits then Raise
    else Sample(DecimalValue(t))
  }

  /** `if line.strip().isdigit(): emg_data.append(int(line.strip()))`. */
  function Classify(line: string): LineOutcome
  {
    ClassifyStripped(Strip(line))
  }

  /** A digit string with whitespace around it (a trailing `'\r'`, say) is read as its number. */
  lemma ClassifyPadded(w1: string, t: string, w2: string)
    requires AllSpace(w1) && AllSpace(w2)
    requires IsDecimalString(t) && |t| <= IntMaxStrDigits
    ensures Classify(w1 + t + w2) == Sample(DecimalValue(t))
  {
    assert IsAsciiDigit(t[0]) && IsAsciiDigit(t[|t| - 1]);
    StripOfPadded(w1, t, w2);
    ReadsDecimal(t);
  }

  lemma ReadsDecimal(t: string)
    requires IsDecimalString(t) && |t| <= IntMaxStrDigits
    ensures ClassifyStripped(t) == Sample(DecimalValue(t))
  {
    assert IsDigitString(t);
  }

  /** The numeral `str(n)` of any value, however padded, is read back as `n`. */
  lemma ClassifyNumeral(w1: string, n: nat, w2: string)
    requires AllSpace(w1) && AllSpace(w2)
    requires |DecimalString(n)| <= IntMaxStrDigits
    ensures Classify(w1 + DecimalString(n) + w2) == Sample(n)
  {
    ClassifyPadded(w1, DecimalString(n), w2);
  }

  /** Zeros in front of a numeral, like those of `007`, do not change the number `int()` reads. */
  lemma ClassifyZeroPadded(w1: string, zeros: string, n: nat, w2: string)
    requires AllSpace(w1) && AllSpace(w2)
    requires forall i :: 0 <= i < |zeros| ==> zeros[i] == '0'
    requires |zeros| + |DecimalString(n)| <= IntMaxStrDigits
    ensures Classify(w1 + (zeros + DecimalString(n)) + w2) == Sample(n)
  {
    DecimalValueLeadingZeros(zeros, DecimalString(n));
    ClassifyPadded(w1, zeros + DecimalString(n), w2);
  }

  /**
   * A line holding any character that is neither whitespace nor a digit (a sign,
   * a decimal point, a letter) is skipped.
   */
  lemma ForeignCharSkips(line: string, k: nat)
    requires k < |line| && !IsSpace(line[k]) && !IsDigitChar(line[k])
    ensures Classify(line) == Skip
  {
    var t := Strip(line);
    var a, b := StripBounds(line);
    if a <= k < b {
      assert t[k - a] == line[k];
    }
  }

  /** An empty or all-whitespace line is skipped. */
  lemma BlankLineSkips(line: string)
    requires AllSpace(line)
    ensures Classify(line) == Skip
  {
    assert line + [] + [] == line;
    StripOfPadded(line, [], []);
  }

  /**
   * What the handler does with one line, in terms of the line itself: with `a`
   * leading and `len - b` trailing whitespace characters cut off, a middle that
   * is not a digit string is skipped, one that `int()` refuses raises, and any
   * other is read as the decimal number it spells.
   */
  lemma ClassifyMeaning(line: string) returns (a: nat, b: nat)
    ensures a <= b <= |line| && AllSpace(line[..a]) && AllSpace(line[b..]) && Trimmed(line[a..b])
    ensures Classify(line).Skip? <==> !IsDigitString(line[a..b])
    ensures Classify(line).Raise? <==>
      IsDigitString(line[a..b]) && (!AllAsciiDigits(line[a..b]) || b - a > IntMaxStrDigits)
    ensures Classify(line).Sample? <==> IsDecimalString(line[a..b]) && b - a <= IntMaxStrDigits
    ensures Classify(line).Sample? ==> Classify(line).value == DecimalValue(line[a..b])
  {
    a, b := StripBounds(line);
  }

  /**
   * The values a list of lines appends, in order: those of the lines that
   * classify as samples, up to the first line that raises.
   */
  function Accepted(lines: seq<string>): (vs: seq<nat>)
    ensures |vs| <= |lines|
  {
    if lines == [] then []
    else match Classify(lines[0])
      case Skip => Accepted(lines[1..])
      case Sample(v) => [v] + Accepted(lines[1..])
      case Raise => []
  }

  predicate NoRaise(lines: seq<string>)
  {
    forall i :: 0 <= i < |lines| ==> !Classify(lines[i]).Raise?
  }

  /** What a line that does not raise appends. */
  function Contribution(line: string): seq<nat>
  {
    match Classify(line)
    case Sample(v) => [v]
    case _ => []
  }

  /** The position of the first line that raises, or the number of lines if none does. */
  function FirstRaise(lines: seq<string>): (k: nat)
    ensures k <= |lines|
    ensures k < |lines| ==> Classify(lines[k]).Raise?
    ensures forall i :: 0 <= i < k ==> !Classify(lines[i]).Raise?
    decreases |lines|
  {
    if lines == [] || Classify(lines[0]).Raise? then 0 else 1 + FirstRaise(lines[1..])
  }

  /** Every line's contribution, one after the other, as if none raised. */
  function Contributions(lines: seq<string>): seq<nat>
    decreases |lines|
  {
    if lines == [] then [] else Contribution(lines[0]) + Contributions(lines[1..])
  }

  /**
   * The handler keeps the contributions of the lines before the first raising
   * one and nothing from that line on.
   */
  lemma {:induction false} AcceptedUpToFirstRaise(lines: seq<string>)
    ensures Accepted(lines) == Contributions(lines[..FirstRaise(lines)])
    decreases |lines|
  {
    if lines == [] || Classify(lines[0]).Raise? {
      assert lines[..FirstRaise(lines)] == [];
    } else {
      var tail := lines[1..];
      var k := FirstRaise(lines);
      assert k == 1 + FirstRaise(tail);
      AcceptedUpToFirstRaise(tail);
      var pre := lines[..k];
      assert pre[0] == lines[0] && pre[1..] == tail[..k - 1];
      assert Contributions(pre) == Contribution(lines[0]) + Contributions(tail[..k - 1]);
      assert Accepted(lines) == Contribution(lines[0]) + Accepted(tail);
    }
  }

  /** Without a raising line in front, lines are processed independently of what follows. */
  lemma {:induction false} AcceptedConcat(a: seq<string>, b: seq<string>)
    requires NoRaise(a)
    ensures Accepted(a + b) == Accepted(a) + Accepted(b)
    decreases |a|
  {
    if a == [] {
      assert a + b == b;
    } else {
      assert (a + b)[0] == a[0];
      assert (a + b)[1..] == a[1..] + b;
      AcceptedConcat(a[1..], b);
    }
  }

  lemma AcceptedSnoc(a: seq<string>, line: string)
    requires NoRaise(a) && !Classify(line).Raise?
    ensures Accepted(a + [line]) == Accepted(a) + Contribution(line)
  {
    AcceptedConcat(a, [line]);
    assert [line][1..] == [];
  }

  /** The first raising line abandons itself and every line after it. */
  lemma {:induction false} RaiseAbandonsRest(a: seq<string>, line: string, b: seq<string>)
    requires NoRaise(a) && Classify(line).Raise?
    ensures Accepted(a + [line] + b) == Accepted(a)
  {
    assert a + [line] + b == a + ([line] + b);
    AcceptedConcat(a, [line] + b);
    assert ([line] + b)[0] == line;
    assert Accepted([line] + b) == [];
  }

  /** A skipped line has no effect on the lines after it, wherever it stands. */
  lemma {:induction false} SkippedLineIsInvisible(a: seq<string>, line: string, b: seq<string>)
    requires Classify(line).Skip?
    ensures Accepted(a + [line] + b) == Accepted(a + b)
    decreases |a|
  {
    if a == [] {
      assert a + [line] + b == [line] + b;
      assert ([line] + b)[1..] == b;
      assert a + b == b;
    } else {
      assert (a + [line] + b)[0] == a[0] && (a + b)[0] == a[0];
      assert (a + [line] + b)[1..] == a[1..] + [line] + b;
      assert (a + b)[1..] == a[1..] + b;
      SkippedLineIsInvisible(a[1..], line, b);
    }
  }

  /** A notification payload: UTF-8 text, or bytes `decode('utf-8')` rejects. */
  datatype Payload = Utf8(text: string) | NotUtf8

  /** `data.decode('utf-8').strip().split('\n')`. */
  function Lines(text: string): seq<string>
  {
    Split(Strip(text))
  }

  /** The values one notification appends; an undecodable payload appends none. */
  function Ingested(p: Payload): seq<nat>
  {
    match p
    case NotUtf8 => []
    case Utf8(text) => Accepted(Lines(text))
  }

  /**
   * The buffer after one notification: the ingested values appended and the
   * result cut back to the newest `Capacity` values.
   */
  function Notify(buf: seq<int>, p: Payload): seq<int>
  {
    AppendAll(buf, Ingested(p))
  }

  /**
   * After a notification the buffer is the newest `Capacity` values of the old
   * buffer followed by the ingested ones; a notification that ingests nothing
   * leaves the buffer alone.
   */
  lemma NotifyRetainsNewest(buf: seq<int>, p: Payload)
    ensures Notify(buf, p) == Appended(buf, Ingested(p))
  {
    AppendAllRetainsNewest(buf, Ingested(p));
  }

  /** The handler as written: one pass over the lines, trimming after every append. */
  method HandleNotification(buf: seq<int>, p: Payload) returns (out: seq<int>)
    ensures out == Appended(buf, Ingested(p))
  {
    if p.NotUtf8? {
      // decode() raised before any line was looked at
      return buf;
    }
    out := AppendLines(buf, Lines(p.text));
    AppendAllRetainsNewest(buf, Ingested(p));
  }

  /** The loop of the handler over the lines of a decoded payload. */
  method AppendLines(buf: seq<int>, lines: seq<string>) returns (out: seq<int>)
    ensures out == AppendAll(buf, Accepted(lines))
  {
    out := buf;
    ghost var done: seq<nat> := [];
    var i := 0;
    while i < |lines|
      invariant 0 <= i <= |lines|
      invariant Accepted(lines) == done + Accepted(lines[i..])
      invariant out == AppendAll(buf, done)
    {
      var outcome := Classify(lines[i]);
      AcceptedStep(lines, i, done);
      if outcome.Raise? {
        // int() raised: the except clause abandons the remaining lines
        return;
      }
      if outcome.Sample? {
        AppendAllSnoc(buf, done, outcome.value);
        out := AppendSample(out, outcome.value);
        done := done + [outcome.value];
      }
      i := i + 1;
    }
    assert lines[i..] == [] && done + [] == done;
  }

  /**
   * One step of the walk over the lines: a raising line ends it, a skipped line
   * adds nothing, and a sample adds its value.
   */
  lemma AcceptedStep(lines: seq<string>, i: nat, done: seq<nat>)
    requires i < |lines| && Accepted(lines) == done + Accepted(lines[i..])
    ensures Classify(lines[i]).Raise? ==> Accepted(lines) == done
    ensures Classify(lines[i]).Skip? ==> Accepted(lines) == done + Accepted(lines[i + 1..])
    ensures Classify(lines[i]).Sample? ==>
      Accepted(lines) == (done + [Classify(lines[i]).value]) + Accepted(lines[i + 1..])
  {
    var rest := lines[i..];
    var later := Accepted(lines[i + 1..]);
    assert rest[0] == lines[i] && rest[1..] == lines[i + 1..];
    match Classify(lines[i]) {
      case Raise =>
        assert Accepted(rest) == [];
        assert done + [] == done;
      case Skip =>
        assert Accepted(rest) == later;
      case Sample(v) =>
        assert Accepted(rest) == [v] + later;
        assert done + ([v] + later) == (done + [v]) + later;
    }
  }

  /** `emg_data.append(value)` followed by `emg_data = emg_data[-10000:]` if it grew too long. */
  method AppendSample(buf: seq<int>, v: int) returns (out: seq<int>)
    ensures out == Push(buf, v)
    ensures out == Retained(buf + [v])
  {
    out := buf + [v];
    if |out| > Capacity {
      out := Tail(out, Capacity);
    }
    PushRetains(buf, v);
  }

  /** The numerals of a list of values, one per line. */
  function Numerals(vs: seq<nat>): (ls: seq<string>)
    ensures |ls| == |vs|
    ensures forall i :: 0 <= i < |vs| ==> ls[i] == DecimalString(vs[i])
  {
    if vs == [] then [] else [DecimalString(vs[0])] + Numerals(vs[1..])
  }

  /** The payload a device sends for a list of values: their numerals joined by newlines. */
  function Encode(vs: seq<nat>): string
  {
    Join(Numerals(vs))
  }

  /** Every value whose numeral `int()` accepts survives a round trip through the handler. */
  lemma {:induction false} IngestEncoded(vs: seq<nat>)
    requires forall i :: 0 <= i < |vs| ==> |DecimalString(vs[i])| <= IntMaxStrDigits
    ensures Ingested(Utf8(Encode(vs))) == vs
  {
    if vs == [] {
      StripOfPadded([], [], []);
      assert Lines(Encode(vs)) == [""];
      BlankLineSkips("");
      assert Accepted([""]) == Accepted([]);
    } else {
      LinesOfEncode(vs);
      AcceptedNumerals(vs);
    }
  }

  /** The lines of an encoded non-empty list are the numerals of its values. */
  lemma LinesOfEncode(vs: seq<nat>)
    requires vs != []
    ensures Lines(Encode(vs)) == Numerals(vs)
  {
    var ls := Numerals(vs);
    EncodeTrimmed(vs);
    assert [] + Encode(vs) + [] == Encode(vs);
    StripOfPadded([], Encode(vs), []);
    forall i | 0 <= i < |ls|
      ensures '\n' !in ls[i]
    {
      NumeralHasNoNewline(vs[i]);
    }
    SplitJoin(ls);
  }

  lemma NumeralHasNoNewline(n: nat)
    ensures '\n' !in DecimalString(n)
  {
    var s := DecimalString(n);
    assert forall i :: 0 <= i < |s| ==> IsAsciiDigit(s[i]);
  }

  /** An encoded non-empty list starts and ends with a digit, so `strip()` leaves it alone. */
  lemma {:induction false} EncodeTrimmed(vs: seq<nat>)
    requires vs != []
    ensures Encode(vs) != []
    ensures IsAsciiDigit(Encode(vs)[0]) && IsAsciiDigit(Encode(vs)[|Encode(vs)| - 1])
    ensures Trimmed(Encode(vs))
    decreases |vs|
  {
    var d := DecimalString(vs[0]);
    assert IsAsciiDigit(d[0]) && IsAsciiDigit(d[|d| - 1]);
    if |vs| > 1 {
      assert Numerals(vs)[1..] == Numerals(vs[1..]);
      EncodeTrimmed(vs[1..]);
      assert Encode(vs) == d + "\n" + Encode(vs[1..]);
    } else {
      assert Encode(vs) == d;
    }
  }

  lemma {:induction false} AcceptedNumerals(vs: seq<nat>)
    requires forall i :: 0 <= i < |vs| ==> |DecimalString(vs[i])| <= IntMaxStrDigits
    ensures Accepted(Numerals(vs)) == vs
    decreases |vs|
  {
    if vs != [] {
      var ls := Numerals(vs);
      NumeralReads(vs[0]);
      assert ls[1..] == Numerals(vs[1..]);
      AcceptedNumerals(vs[1..]);
    }
  }

  /** The bare numeral of a value is read back as the value. */
  lemma NumeralReads(n: nat)
    requires |DecimalString(n)| <= IntMaxStrDigits
    ensures Classify(DecimalString(n)) == Sample(n)
  {
    var s := DecimalString(n);
    assert [] + s + [] == s;
    ClassifyPadded([], s, []);
  }
}

=== FILE: plots.dfy ===
/**
 * The discrete part of `update_plots` (the live view, refreshed by the timer)
 * and `save_all_plots` (the export): which samples each one looks at, and the
 * lengths and parameters of what it derives from them. The float signal path
 * (scaling, mean removal, band-pass filter, FFT values, spectrogram values) and
 * the drawing are not part of this model.
 */
module Plots {
  import opened Wrappers
  import opened SampleBuffer
  import opened Window
  import opened Spectrum

  /** The sample rate as the plot routines divide by it. */
  const Fs: real := SampleRate as real

  /** `np.arange(n) / fs`: the time of every sample of a window, starting at 0 s. */
  function TimeAxis(n: nat, fs: real): (t: seq<real>)
    requires fs > 0.0
    ensures |t| == n
    ensures forall i :: 0 <= i < n ==> t[i] * fs == i as real
  {
    seq(n, i => (i as real) / fs)
  }

  /** Samples are `1 / fs` seconds apart, and the whole axis lies within the window's duration. */
  lemma TimeAxisSpacing(n: nat, fs: real)
    requires fs > 0.0
    ensures n >= 1 ==> TimeAxis(n, fs)[0] == 0.0
    ensures forall i :: 0 <= i < n - 1 ==> TimeAxis(n, fs)[i + 1] - TimeAxis(n, fs)[i] == 1.0 / fs
    ensures forall i :: 0 <= i < n ==> 0.0 <= TimeAxis(n, fs)[i] < (n as real) / fs
  {
    var t := TimeAxis(n, fs);
    forall i | 0 <= i < n - 1
      ensures t[i + 1] - t[i] == 1.0 / fs
    {
      assert t[i + 1] == ((i + 1) as real) / fs && t[i] == (i as real) / fs;
      assert ((i + 1) as real) / fs == (i as real) / fs + 1.0 / fs;
    }
    forall i | 0 <= i < n
      ensures 0.0 <= t[i] < (n as real) / fs
    {
      assert t[i] == (i as real) / fs;
      assert (i as real) < (n as real);
    }
  }

  /**
   * What a plot routine derives from its window before the float signal path:
   * the window itself, the clamped readings, the time axis, the frequency axis
   * of the spectrum and the spectrogram's segment parameters.
   */
  datatype Analysis = Analysis(
    window: seq<int>,
    clipped: seq<int>,
    times: seq<real>,
    freqs: seq<real>,
    segments: SegmentParams)

  function Analyse(window: seq<int>): (a: Analysis)
    requires |window| >= 1
    ensures a.window == window
    ensures |a.clipped| == |window| && AllInAdcRange(a.clipped)
    ensures forall i :: 0 <= i < |window| ==> a.clipped[i] == Clip(window[i])
    ensures |a.times| == |window| && |a.freqs| == |window| / 2 + 1
    ensures forall i :: 0 <= i < |window| ==> a.times[i] * Fs == i as real
    ensures forall i :: 0 <= i < |a.freqs| ==> a.freqs[i] == (i as real) * Fs / (|window| as real)
    ensures 1 <= a.segments.nperseg <= |window| && a.segments.noverlap < a.segments.nperseg
  {
    var clipped := ClipAll(window);
    assert forall i :: 0 <= i < |window| ==> clipped[i] == Clip(window[i]);
    var times := TimeAxis(|window|, Fs);
    assert forall i :: 0 <= i < |window| ==> times[i] * Fs == i as real;
    var freqs := BinFrequencies(|window|, Fs);
    Analysis(window, clipped, times, freqs, SegmentParamsFor(|window|))
  }

  /**
   * One timer tick of the live view: nothing while fewer than 800 samples have
   * arrived, otherwise the analysis of the newest 800, with a 401-bin spectrum
   * and 64-sample segments overlapping by 57.
   */
  function UpdatePlots(buf: seq<int>): (r: Option<Analysis>)
    ensures r.None? <==> |buf| < 800
    ensures r.Some? ==> r.value.window == buf[|buf| - 800..]
    ensures r.Some? ==> |r.value.freqs| == 401 && r.value.segments == SegmentParams(64, 57)
    ensures r.Some? ==> |r.value.clipped| == 800 && AllInAdcRange(r.value.clipped)
  {
    match LatestWindow(buf, LiveWindow)
    case None => None
    case Some(w) => Some(Analyse(w))
  }

  /** The file the export writes. */
  const SnapshotFile: string := "emg_snapshot.png"

  /** The export's result: it gave up, or it wrote the named file from an analysis. */
  datatype ExportResult = NotEnoughData | Saved(file: string, analysis: Analysis)

  /**
   * The export: no file while fewer than 100 samples have arrived, otherwise
   * `emg_snapshot.png` drawn from the newest 100, with a 51-bin spectrum and
   * 64-sample segments overlapping by 57.
   */
  function SaveAllPlots(buf: seq<int>): (r: ExportResult)
    ensures r.NotEnoughData? <==> |buf| < 100
    ensures r.Saved? ==> r.file == "emg_snapshot.png"
    ensures r.Saved? ==> r.analysis.window == buf[|buf| - 100..]
    ensures r.Saved? ==> |r.analysis.freqs| == 51 && r.analysis.segments == SegmentParams(64, 57)
  {
    match LatestWindow(buf, ExportWindow)
    case None => NotEnoughData
    case Some(w) => Saved(SnapshotFile, Analyse(w))
  }

  /** Neither view can tell the capped buffer from the full history of samples. */
  lemma ViewsIgnoreCap(h: seq<int>)
    ensures UpdatePlots(Retained(h)) == UpdatePlots(h)
    ensures SaveAllPlots(Retained(h)) == SaveAllPlots(h)
  {
    WindowSurvivesCap(h, LiveWindow);
    WindowSurvivesCap(h, ExportWindow);
  }

  /**
   * Whenever the live view draws, an export would succeed, and the exported
   * window is the last eighth of the live one.
   */
  lemma ExportWithinLiveView(buf: seq<int>)
    requires UpdatePlots(buf).Some?
    ensures SaveAllPlots(buf).Saved?
    ensures SaveAllPlots(buf).analysis.window == UpdatePlots(buf).value.window[700..]
  {
    var live := UpdatePlots(buf).value.window;
    assert live[700..] == buf[|buf| - 100..];
  }
}

=== FILE: pyslice.dfy ===
/**
 * Python's slicing with step 1, as used on lists and NumPy arrays: a negative
 * bound counts from the end, and every bound is clamped into the sequence.
 */
module PySlice {
  import opened Wrappers

  /** The position that slice bound `i` denotes in a sequence of length `len`. */
  function Bound(len: nat, i: int): (b: nat)
    ensures b <= len
  {
    if i < 0 then (if len + i < 0 then 0 else len + i)
    else if i > len then len
    else i
  }

  /** The half-open range [lo, hi) that `s[start:stop]` selects; an omitted bound is `None`. */
  function Range(len: nat, start: Option<int>, stop: Option<int>): (r: (nat, nat))
    ensures r.0 <= r.1 <= len
  {
    var lo := if start.Some? then Bound(len, start.value) else 0;
    var hi := if stop.Some? then Bound(len, stop.value) else len;
    if lo < hi then (lo, hi) else (lo, lo)
  }

  /** `s[start:stop]`. */
  function Slice<T>(s: seq<T>, start: Option<int>, stop: Option<int>): (r: seq<T>)
    ensures |r| <= |s|
  {
    var (lo, hi) := Range(|s|, start, stop);
    s[lo..hi]
  }

  /**
   * `s[-k:]`: the newest `k` elements when there are that many, otherwise all
   * of them. Since `-0` is `0`, `k = 0` selects the whole sequence, not nothing.
   */
  function Tail<T>(s: seq<T>, k: nat): (r: seq<T>)
    ensures 0 < k <= |s| ==> r == s[|s| - k..]
    ensures k == 0 || k >= |s| ==> r == s
  {
    var start: Option<int> := Some(0 - k as int);
    Slice(s, start, None)
  }

  /** `a[1:-1]` selects exactly the positions strictly between the first and the last. */
  lemma InteriorRange(len: nat)
    ensures len >= 3 ==> Range(len, Some(1), Some(-1)) == (1, len - 1)
    ensures len < 3 ==> Range(len, Some(1), Some(-1)).0 == Range(len, Some(1), Some(-1)).1
  {
  }
}

=== FILE: session.dfy ===
/**
 * The application's session record: the sample buffer, whether the refresh
 * timer runs, and the state of the BLE client, changed by connect and
 * disconnect attempts (whose outcome the radio decides, so it is a parameter)
 * and by notifications.
 */
module Session {
  import opened Wrappers
  import opened SampleBuffer
  import opened Ingest
  import opened Plots

  /** `self.ble_client`: none yet, or a client that is or is not connected. */
  datatype Link = NoClient | Client(connected: bool)

  datatype State = State(buffer: seq<int>, timerRunning: bool, link: Link)

  /** The record as `__init__` leaves it: no samples, timer stopped, no client. */
  function Initial(): (s: State)
    ensures s.buffer == [] && !s.timerRunning
  {
    State([], false, NoClient)
  }

  /**
   * How a press of Connect ends: no device named `BT05` or `HMSoft` was found;
   * `connect()` or `start_notify()` raised, leaving a client that is or is not
   * connected; or both succeeded.
   */
  datatype ConnectOutcome = NoDeviceFound | ConnectRaised(linkUp: bool) | Connected

  /**
   * How `disconnect()` ends when it is attempted: it completes, or it raises
   * and leaves the client connected or not (`is_connected` is a live query).
   */
  datatype DisconnectOutcome = Disconnected | DisconnectRaised(linkUp: bool)

  /**
   * `start_ble_connection`: only a complete connection clears the buffer and
   * starts the timer; a failed one touches neither.
   */
  function Connect(s: State, o: ConnectOutcome): (t: State)
    ensures o.Connected? ==> t.buffer == [] && t.timerRunning && t.link == Client(true)
    ensures !o.Connected? ==> t.buffer == s.buffer && t.timerRunning == s.timerRunning
  {
    match o
    case NoDeviceFound => s
    case ConnectRaised(up) => s.(link := Client(up))
    case Connected => State([], true, Client(true))
  }

  /**
   * `disconnect_ble` as written: attempted only with a connected client. When
   * `disconnect()` completes, the message printed next starts with two lone
   * surrogate code points (in Python 3, `"\ud83d\udd0c"` is not U+1F50C), which
   * a text stdout refuses to encode under both the strict and the
   * surrogateescape error handlers; the print raises, `timer.stop()` is
   * skipped and the `except` swallows the error. So the timer never stops here.
   */
  function DisconnectAsWritten(s: State, o: DisconnectOutcome): (t: State)
    ensures t.buffer == s.buffer && t.timerRunning == s.timerRunning
    ensures s.link == Client(true) && o.Disconnected? ==> t.link == Client(false)
    ensures s.link != Client(true) ==> t == s
  {
    if s.link != Client(true) then s
    else
      match o
      case Disconnected => s.(link := Client(false))
      case DisconnectRaised(up) => s.(link := Client(up))
  }

  /**
   * `disconnect_ble` as evidently intended: a completed disconnect of a
   * connected client also stops the timer; one that raises leaves the timer
   * running. The buffer is kept either way.
   */
  function Disconnect(s: State, o: DisconnectOutcome): (t: State)
    ensures t.buffer == s.buffer
    ensures s.link == Client(true) && o.Disconnected? ==> !t.timerRunning && t.link == Client(false)
    ensures !(s.link == Client(true) && o.Disconnected?) ==> t.timerRunning == s.timerRunning
    ensures s.link != Client(true) ==> t == s
  {
    var t := DisconnectAsWritten(s, o);
    if s.link == Client(true) && o.Disconnected? then t.(timerRunning := false) else t
  }

  /** The two differ exactly on a completed disconnect while the timer runs. */
  lemma DisconnectDiscrepancy(s: State)
    requires s.link == Client(true) && s.timerRunning
    ensures DisconnectAsWritten(s, Disconnected).timerRunning
    ensures !Disconnect(s, Disconnected).timerRunning
  {
  }

  /** A notification runs the handler on the buffer and changes nothing else. */
  function Receive(s: State, p: Payload): (t: State)
    ensures t.timerRunning == s.timerRunning && t.link == s.link
  {
    s.(buffer := Notify(s.buffer, p))
  }

  /** A timer tick: the live view is refreshed only while the timer runs. */
  function Tick(s: State): (r: Option<Analysis>)
    ensures !s.timerRunning ==> r.None?
    ensures s.timerRunning ==> (r.None? <==> |s.buffer| < 800)
  {
    if s.timerRunning then UpdatePlots(s.buffer) else None
  }

  /** The Save button, available in every state. */
  function Export(s: State): (r: ExportResult)
    ensures r.Saved? <==> |s.buffer| >= 100
  {
    SaveAllPlots(s.buffer)
  }

  datatype Event =
    | ConnectAttempt(c: ConnectOutcome)
    | DisconnectAttempt(d: DisconnectOutcome)
    | Notification(p: Payload)

  function Step(s: State, e: Event): State
  {
    match e
    case ConnectAttempt(c) => Connect(s, c)
    case DisconnectAttempt(d) => Disconnect(s, d)
    case Notification(p) => Receive(s, p)
  }

  /**
   * What each kind of event may change: only a notification or a completed
   * connection touches the buffer, only a connection or a disconnect touches
   * the timer, and a notification touches nothing but the buffer.
   */
  lemma StepFrame(s: State, e: Event)
    ensures !e.Notification? && !IsConnect(e) ==> Step(s, e).buffer == s.buffer
    ensures IsConnect(e) ==> Step(s, e).buffer == [] && Step(s, e).timerRunning
    ensures e.Notification? ==> Step(s, e).timerRunning == s.timerRunning && Step(s, e).link == s.link
    ensures e.Notification? ==> Step(s, e).buffer == Notify(s.buffer, e.p)
  {
  }

  /** The state after a sequence of events, applied in order. */
  function Run(s: State, evs: seq<Event>): State
    decreases |evs|
  {
    if evs == [] then s else Step(Run(s, evs[..|evs| - 1]), evs[|evs| - 1])
  }

  /** One event of the program as written: only a disconnect differs from `Step`. */
  function StepAsWritten(s: State, e: Event): State
  {
    match e
    case DisconnectAttempt(d) => DisconnectAsWritten(s, d)
    case _ => Step(s, e)
  }

  function RunAsWritten(s: State, evs: seq<Event>): State
    decreases |evs|
  {
    if evs == [] then s else StepAsWritten(RunAsWritten(s, evs[..|evs| - 1]), evs[|evs| - 1])
  }

  /** As written, once the timer runs, no sequence of events stops it. */
  lemma {:induction false} TimerNeverStopsAsWritten(s: State, evs: seq<Event>)
    requires s.timerRunning
    ensures RunAsWritten(s, evs).timerRunning
    decreases |evs|
  {
    if evs != [] {
      TimerNeverStopsAsWritten(s, evs[..|evs| - 1]);
    }
  }

  /** With the correction, a completed disconnect does stop the timer, and only a connection restarts it. */
  lemma {:induction false} DisconnectStopsTimer(s: State, evs: seq<Event>)
    requires s.link == Client(true)
    requires !ConnectedIn(evs)
    ensures !Run(s, [DisconnectAttempt(Disconnected)] + evs).timerRunning
    decreases |evs|
  {
    var all := [DisconnectAttempt(Disconnected)] + evs;
    if evs == [] {
      assert all[..0] == [];
    } else {
      var pre := evs[..|evs| - 1];
      assert forall i :: 0 <= i < |pre| ==> pre[i] == evs[i];
      DisconnectStopsTimer(s, pre);
      assert all[..|all| - 1] == [DisconnectAttempt(Disconnected)] + pre;
      assert all[|all| - 1] == evs[|evs| - 1];
      assert !IsConnect(evs[|evs| - 1]);
    }
  }

  /** The buffer holds at most `Capacity` values, none of them negative. */
  predicate Valid(s: State)
  {
    |s.buffer| <= Capacity && NonNegative(s.buffer)
  }

  lemma StepPreservesValid(s: State, e: Event)
    requires Valid(s)
    ensures Valid(Step(s, e))
  {
    if e.Notification? {
      var vs: seq<int> := Ingested(e.p);
      assert NonNegative(vs);
      AppendAllKeepsBounds(s.buffer, vs);
    }
  }

  /** Every reachable buffer is bounded and non-negative. */
  lemma {:induction false} RunPreservesValid(s: State, evs: seq<Event>)
    requires Valid(s)
    ensures Valid(Run(s, evs))
    decreases |evs|
  {
    if evs != [] {
      RunPreservesValid(s, evs[..|evs| - 1]);
      StepPreservesValid(Run(s, evs[..|evs| - 1]), evs[|evs| - 1]);
    }
  }

  predicate IsConnect(e: Event)
  {
    e.ConnectAttempt? && e.c.Connected?
  }

  /** Whether some event completed a connection. */
  predicate ConnectedIn(evs: seq<Event>)
  {
    exists i :: 0 <= i < |evs| && IsConnect(evs[i])
  }

  /** The values the notifications after the last completed connection ingested, in order. */
  function Received(evs: seq<Event>): seq<int>
    decreases |evs|
  {
    if evs == [] then []
    else
      var e := evs[|evs| - 1];
      if IsConnect(e) then []
      else if e.Notification? then Received(evs[..|evs| - 1]) + Ingested(e.p)
      else Received(evs[..|evs| - 1])
  }

  /**
   * The buffer is always the newest `Capacity` values received since the last
   * completed connection, in arrival order; with no such connection, the
   * starting buffer followed by everything received.
   */
  lemma {:induction false} BufferIsRecentHistory(s: State, evs: seq<Event>)
    ensures ConnectedIn(evs) ==> Run(s, evs).buffer == Appended([], Received(evs))
    ensures !ConnectedIn(evs) ==> Run(s, evs).buffer == Appended(s.buffer, Received(evs))
    decreases |evs|
  {
    if evs != [] {
      var pre := evs[..|evs| - 1];
      var e := evs[|evs| - 1];
      BufferIsRecentHistory(s, pre);
      var before := if ConnectedIn(pre) then [] else s.buffer;
      assert Run(s, pre).buffer == Appended(before, Received(pre));
      if IsConnect(e) {
        assert ConnectedIn(evs);
      } else {
        assert ConnectedIn(evs) == ConnectedIn(pre) by {
          if ConnectedIn(evs) {
            var i :| 0 <= i < |evs| && IsConnect(evs[i]);
            assert evs[i] == pre[i];
          }
          if ConnectedIn(pre) {
            var i :| 0 <= i < |pre| && IsConnect(pre[i]);
            assert pre[i] == evs[i];
          }
        }
        if e.Notification? {
          NotifyRetainsNewest(Run(s, pre).buffer, e.p);
          AppendedTwice(before, Received(pre), Ingested(e.p));
        }
      }
    }
  }

  /** The timer runs only if it already ran or some event completed a connection. */
  lemma {:induction false} TimerNeedsConnect(s: State, evs: seq<Event>)
    ensures Run(s, evs).timerRunning ==> s.timerRunning || ConnectedIn(evs)
    decreases |evs|
  {
    if evs != [] {
      var pre := evs[..|evs| - 1];
      TimerNeedsConnect(s, pre);
      if ConnectedIn(pre) {
        var i :| 0 <= i < |pre| && IsConnect(pre[i]);
        assert evs[i] == pre[i];
      }
      if IsConnect(evs[|evs| - 1]) {
        assert ConnectedIn(evs);
      }
    }
  }

  /**
   * The correction only ever stops the timer: the program as written reaches
   * the same buffer and link after any sequence of events, and its timer runs
   * whenever the corrected one does.
   */
  lemma {:induction false} AsWrittenAgrees(s: State, evs: seq<Event>)
    ensures RunAsWritten(s, evs).buffer == Run(s, evs).buffer
    ensures RunAsWritten(s, evs).link == Run(s, evs).link
    ensures Run(s, evs).timerRunning ==> RunAsWritten(s, evs).timerRunning
    decreases |evs|
  {
    if evs != [] {
      AsWrittenAgrees(s, evs[..|evs| - 1]);
    }
  }

  /** As written, too, every reachable buffer is bounded and non-negative. */
  lemma RunAsWrittenPreservesValid(s: State, evs: seq<Event>)
    requires Valid(s)
    ensures Valid(RunAsWritten(s, evs))
  {
    RunPreservesValid(s, evs);
    AsWrittenAgrees(s, evs);
  }

  /** As written, too, the buffer is the newest `Capacity` values received since the last completed connection. */
  lemma BufferIsRecentHistoryAsWritten(s: State, evs: seq<Event>)
    ensures ConnectedIn(evs) ==> RunAsWritten(s, evs).buffer == Appended([], Received(evs))
    ensures !ConnectedIn(evs) ==> RunAsWritten(s, evs).buffer == Appended(s.buffer, Received(evs))
  {
    BufferIsRecentHistory(s, evs);
    AsWrittenAgrees(s, evs);
  }

  /** As written, too, the timer runs only if it already ran or some event completed a connection. */
  lemma {:induction false} TimerNeedsConnectAsWritten(s: State, evs: seq<Event>)
    ensures RunAsWritten(s, evs).timerRunning ==> s.timerRunning || ConnectedIn(evs)
    decreases |evs|
  {
    if evs != [] {
      var pre := evs[..|evs| - 1];
      TimerNeedsConnectAsWritten(s, pre);
      if ConnectedIn(pre) {
        var i :| 0 <= i < |pre| && IsConnect(pre[i]);
        assert evs[i] == pre[i];
      }
      if IsConnect(evs[|evs| - 1]) {
        assert ConnectedIn(evs);
      }
    }
  }

  /** As written, too, the live view never draws before the first completed connection. */
  lemma NoLiveViewBeforeConnectAsWritten(evs: seq<Event>)
    requires !ConnectedIn(evs)
    ensures Tick(RunAsWritten(Initial(), evs)).None?
  {
    TimerNeedsConnectAsWritten(Initial(), evs);
  }

  /** Before the first completed connection the live view never draws. */
  lemma NoLiveViewBeforeConnect(evs: seq<Event>)
    requires !ConnectedIn(evs)
    ensures Tick(Run(Initial(), evs)).None?
  {
    TimerNeedsConnect(Initial(), evs);
  }
}

=== FILE: spectrum.dfy ===
/**
 * The index and length rules around the two spectral views: the frequency axis
 * of `np.fft.rfftfreq`, the `fft_vals[1:-1] *= 2` shaping of the magnitudes,
 * and the segment length and overlap handed to `scipy.signal.spectrogram`.
 * The magnitudes themselves are abstract reals.
 */
module Spectrum {
  import opened Wrappers
  import opened PySlice

  /** The number of bins `np.fft.rfft` returns for a real signal of length `n`. */
  function BinCount(n: nat): nat
  {
    n / 2 + 1
  }

  /** The spacing of the frequency bins of a length-`n` signal sampled at `fs`. */
  function Resolution(n: nat, fs: real): real
    requires n >= 1
  {
    fs / (n as real)
  }

  /** `np.fft.rfftfreq(n, d=1/fs)`: bin `i` lies at `i * fs / n`, in exact arithmetic. */
  function BinFrequencies(n: nat, fs: real): (f: seq<real>)
    requires n >= 1
    ensures |f| == BinCount(n)
    ensures forall i :: 0 <= i < |f| ==> f[i] == (i as real) * fs / (n as real)
  {
    var f := seq(BinCount(n), i => (i as real) * Resolution(n, fs));
    forall i | 0 <= i < |f|
      ensures f[i] == (i as real) * fs / (n as real)
    {
      ScaledBack(i as real, fs, n as real);
    }
    f
  }

  /** Multiplying by a quotient is dividing the product. */
  lemma ScaledBack(x: real, fs: real, n: real)
    requires n > 0.0
    ensures x * (fs / n) == x * fs / n
  {
    assert (fs / n) * n == fs;
    assert x * (fs / n) * n == x * fs;
  }

  /**
   * The frequency axis starts at 0 Hz, rises in steps of `fs / n`, and ends at
   * or below the Nyquist frequency `fs / 2`, reaching it exactly when `n` is even.
   */
  lemma FrequencyAxis(n: nat, fs: real)
    requires n >= 1 && fs > 0.0
    ensures BinFrequencies(n, fs)[0] == 0.0
    ensures forall i :: 0 <= i < BinCount(n) - 1 ==>
      BinFrequencies(n, fs)[i + 1] - BinFrequencies(n, fs)[i] == Resolution(n, fs)
    ensures BinFrequencies(n, fs)[BinCount(n) - 1] <= fs / 2.0
    ensures BinFrequencies(n, fs)[BinCount(n) - 1] == fs / 2.0 <==> n % 2 == 0
  {
    var f := BinFrequencies(n, fs);
    var d := Resolution(n, fs);
    forall i | 0 <= i < BinCount(n) - 1
      ensures f[i + 1] - f[i] == d
    {
      assert f[i + 1] == ((i + 1) as real) * d && f[i] == (i as real) * d;
      Distributes(i, d);
    }
    assert f[BinCount(n) - 1] == ((n / 2) as real) * Resolution(n, fs);
    NyquistBin(n, fs);
  }

  /** A proof step of `FrequencyAxis`, kept apart so that its real arithmetic stays small. */
  lemma Distributes(i: nat, d: real)
    ensures ((i + 1) as real) * d - (i as real) * d == d
  {
  }

  /** The last bin sits at `(n / 2) * fs / n`, which is `fs / 2` for even `n` and below it for odd `n`. */
  lemma NyquistBin(n: nat, fs: real)
    requires n >= 1 && fs > 0.0
    ensures var last := ((n / 2) as real) * Resolution(n, fs);
      && last <= fs / 2.0
      && (last == fs / 2.0 <==> n % 2 == 0)
  {
    var d := Resolution(n, fs);
    var h := (n / 2) as real;
    assert d * (n as real) == fs;
    assert d > 0.0;
    if n % 2 == 0 {
      assert 2.0 * h == n as real;
      assert 2.0 * (h * d) == fs;
    } else {
      assert 2.0 * h == (n as real) - 1.0;
      assert 2.0 * (h * d) == fs - d;
    }
  }

  /**
   * `m[1:-1] *= 2`: every value strictly between the first and the last is
   * doubled; the first and the last are left alone, and so is everything when
   * there are fewer than three values.
   */
  function DoubleInterior(m: seq<real>): (r: seq<real>)
    ensures |r| == |m|
    ensures |m| >= 1 ==> r[0] == m[0] && r[|m| - 1] == m[|m| - 1]
    ensures forall i :: 0 < i < |m| - 1 ==> r[i] == 2.0 * m[i]
  {
    var (lo, hi) := Range(|m|, Some(1), Some(-1));
    InteriorRange(|m|);
    seq(|m|, i requires 0 <= i < |m| => if lo <= i < hi then 2.0 * m[i] else m[i])
  }

  /** Halving the interior values undoes the shaping. */
  function HalveInterior(m: seq<real>): (r: seq<real>)
    ensures |r| == |m|
  {
    seq(|m|, i requires 0 <= i < |m| => if 0 < i < |m| - 1 then m[i] / 2.0 else m[i])
  }

  /** No magnitude is lost to the shaping: it can be undone exactly. */
  lemma DoublingInvertible(m: seq<real>)
    ensures HalveInterior(DoubleInterior(m)) == m
  {
    var d := DoubleInterior(m);
    var h := HalveInterior(d);
    forall i | 0 <= i < |m|
      ensures h[i] == m[i]
    {
      if 0 < i < |m| - 1 {
        assert d[i] == 2.0 * m[i];
      }
    }
  }

  /**
   * The textbook one-sided amplitude spectrum of a real signal of length `n`:
   * every bin except DC, and except the Nyquist bin when `n` is even, also
   * stands for its mirror-image negative-frequency bin and is counted twice.
   */
  function OneSided(n: nat, m: seq<real>): (r: seq<real>)
    requires |m| == BinCount(n)
    ensures |r| == |m|
  {
    seq(|m|, i requires 0 <= i < |m| =>
      if i == 0 || (n % 2 == 0 && i == n / 2) then m[i] else 2.0 * m[i])
  }

  /**
   * The shaping the program applies agrees with the one-sided spectrum exactly
   * when the window length is even or 1, or the last magnitude is zero: for an
   * odd length of at least 3 the last bin is a true pair but is not doubled.
   */
  lemma DoublingMatchesOneSided(n: nat, m: seq<real>)
    requires n >= 1 && |m| == BinCount(n)
    ensures DoubleInterior(m) == OneSided(n, m) <==> (n % 2 == 0 || n == 1 || m[|m| - 1] == 0.0)
  {
    var d := DoubleInterior(m);
    var o := OneSided(n, m);
    var k := |m| - 1;
    if n % 2 == 0 || n == 1 {
      forall i | 0 <= i < |m|
        ensures d[i] == o[i]
      {
        if 0 < i < k {
          assert d[i] == 2.0 * m[i];
        }
      }
    } else {
      assert o[k] == 2.0 * m[k];
      assert d[k] == m[k];
      if m[k] == 0.0 {
        forall i | 0 <= i < |m|
          ensures d[i] == o[i]
        {
          if 0 < i < k {
            assert d[i] == 2.0 * m[i];
          }
        }
      } else {
        assert d[k] != o[k];
      }
    }
  }

  /**
   * `np.abs(np.fft.rfft(x)) / n` followed by the shaping: the DC and last bins
   * are the magnitudes divided by `n`, every other bin twice that.
   */
  function Amplitudes(n: nat, mags: seq<real>): (r: seq<real>)
    requires n >= 1
    ensures |r| == |mags|
    ensures |mags| >= 1 ==> r[0] == mags[0] / (n as real)
    ensures |mags| >= 1 ==> r[|mags| - 1] == mags[|mags| - 1] / (n as real)
    ensures forall i :: 0 < i < |mags| - 1 ==> r[i] == 2.0 * (mags[i] / (n as real))
  {
    DoubleInterior(seq(|mags|, i requires 0 <= i < |mags| => mags[i] / (n as real)))
  }

  /** The longest segment the spectrogram uses. */
  const MaxSegment: nat := 64

  /** The arguments handed to `scipy.signal.spectrogram`. */
  datatype SegmentParams = SegmentParams(nperseg: nat, noverlap: nat)

  /**
   * `nperseg = min(64, n)` and `noverlap = int(nperseg * 0.9)`, the latter as
   * integer arithmetic, which agrees with the float product for every segment
   * length up to 64.
   */
  function SegmentParamsFor(n: nat): (p: SegmentParams)
    ensures n >= 1 ==> 1 <= p.nperseg <= MaxSegment && p.nperseg <= n
    ensures n >= 1 ==> p.noverlap < p.nperseg
    ensures n < MaxSegment ==> p.nperseg == n
    ensures n >= MaxSegment ==> p == SegmentParams(64, 57)
  {
    var nperseg := if n < MaxSegment then n else MaxSegment;
    SegmentParams(nperseg, 9 * nperseg / 10)
  }

  /** How far one segment starts after the previous one. */
  function Hop(p: SegmentParams): nat
    requires p.noverlap <= p.nperseg
  {
    p.nperseg - p.noverlap
  }

  /**
   * The overlap is the largest whole number of samples not above 90% of the
   * segment, so the hop is the smallest one not below 10% of it, and at least 1.
   */
  lemma OverlapIsNinetyPercent(n: nat)
    requires n >= 1
    ensures var p := SegmentParamsFor(n);
      && 10 * p.noverlap <= 9 * p.nperseg < 10 * (p.noverlap + 1)
      && 10 * (Hop(p) - 1) < p.nperseg <= 10 * Hop(p)
      && Hop(p) >= 1
  {
    var p := SegmentParamsFor(n);
    assert p.noverlap == 9 * p.nperseg / 10;
  }
}

=== FILE: text.dfy ===
/**
 * The string operations the notification handler applies to a decoded payload:
 * `str.strip()`, `str.split('\n')`, `str.isdigit()` and `int()` on a digit string.
 */
module Text {

  /**
   * Python's `str.isspace`, written out for every code point: the characters
   * that `str.strip()` without arguments removes.
   */
  predicate IsSpace(c: char)
  {
    || ('\t' <= c <= '\r')
    || ('\U{1C}' <= c <= '\U{1F}')
    || c == ' '
    || c == '\U{85}'
    || c == '\U{A0}'
    || c == '\U{1680}'
    || ('\U{2000}' <= c <= '\U{200A}')
    || c == '\U{2028}'
    || c == '\U{2029}'
    || c == '\U{202F}'
    || c == '\U{205F}'
    || c == '\U{3000}'
  }

  predicate AllSpace(s: string)
  {
    forall i :: 0 <= i < |s| ==> IsSpace(s[i])
  }

  /** Neither end of `s` is whitespace (vacuously so for the empty string). */
  predicate Trimmed(s: string)
  {
    s == [] || (!IsSpace(s[0]) && !IsSpace(s[|s| - 1]))
  }

  /** `s.lstrip()`. */
  function StripLeft(s: string): string
    decreases |s|
  {
    if |s| > 0 && IsSpace(s[0]) then StripLeft(s[1..]) else s
  }

  /** `s.rstrip()`. */
  function StripRight(s: string): string
    decreases |s|
  {
    if |s| > 0 && IsSpace(s[|s| - 1]) then StripRight(s[..|s| - 1]) else s
  }

  /** `s.strip()`. */
  function Strip(s: string): string
  {
    StripRight(StripLeft(s))
  }

  /** `lstrip()` drops the leading whitespace, `s[..k]`, and nothing else. */
  lemma {:induction false} StripLeftSpec(s: string) returns (k: nat)
    ensures k <= |s| && StripLeft(s) == s[k..]
    ensures forall i :: 0 <= i < k ==> IsSpace(s[i])
    ensures k == |s| || !IsSpace(s[k])
    decreases |s|
  {
    if |s| > 0 && IsSpace(s[0]) {
      var j := StripLeftSpec(s[1..]);
      k := j + 1;
      assert s[1..][j..] == s[k..];
      forall i | 1 <= i < k
        ensures IsSpace(s[i])
      {
        assert s[i] == s[1..][i - 1];
      }
    } else {
      k := 0;
    }
  }

  /** `rstrip()` drops the trailing whitespace, `s[k..]`, and nothing else. */
  lemma {:induction false} StripRightSpec(s: string) returns (k: nat)
    ensures k <= |s| && StripRight(s) == s[..k]
    ensures forall i :: k <= i < |s| ==> IsSpace(s[i])
    ensures k == 0 || !IsSpace(s[k - 1])
    decreases |s|
  {
    if |s| > 0 && IsSpace(s[|s| - 1]) {
      k := StripRightSpec(s[..|s| - 1]);
      assert s[..|s| - 1][..k] == s[..k];
      forall i | k <= i < |s| - 1
        ensures IsSpace(s[i])
      {
        assert s[i] == s[..|s| - 1][i];
      }
    } else {
      k := |s|;
    }
  }

  /**
   * What `strip()` keeps is the run `s[a..b]`, with only whitespace before `a`
   * and after `b`, and with no whitespace at either of its own ends.
   */
  lemma StripBounds(s: string) returns (a: nat, b: nat)
    ensures a <= b <= |s|
    ensures Strip(s) == s[a..b]
    ensures AllSpace(s[..a]) && AllSpace(s[b..])
    ensures Trimmed(Strip(s))
  {
    var l := StripLeft(s);
    a := StripLeftSpec(s);
    var kr := StripRightSpec(l);
    b := a + kr;
    assert l[..kr] == s[a..b];
    forall i | 0 <= i < |s| - b
      ensures IsSpace(s[b..][i])
    {
      assert s[b..][i] == l[kr + i];
    }
  }

  /** Whitespace added around a trimmed string is exactly what `strip()` removes. */
  lemma {:induction false} StripOfPadded(w1: string, t: string, w2: string)
    requires AllSpace(w1) && AllSpace(w2) && Trimmed(t)
    ensures Strip(w1 + t + w2) == t
  {
    if t == [] {
      assert w1 + t + w2 == (w1 + w2) + [];
      assert AllSpace(w1 + w2);
      StripLeftOfPadded(w1 + w2, []);
    } else {
      assert w1 + t + w2 == w1 + (t + w2);
      StripLeftOfPadded(w1, t + w2);
      StripRightOfPadded(t, w2);
    }
  }

  lemma {:induction false} StripLeftOfPadded(w: string, t: string)
    requires AllSpace(w)
    requires t == [] || !IsSpace(t[0])
    ensures StripLeft(w + t) == StripLeft(t)
    decreases |w|
  {
    if w == [] {
      assert w + t == t;
    } else {
      assert (w + t)[1..] == w[1..] + t;
      StripLeftOfPadded(w[1..], t);
    }
  }

  lemma {:induction false} StripRightOfPadded(t: string, w: string)
    requires AllSpace(w)
    requires t == [] || !IsSpace(t[|t| - 1])
    ensures StripRight(t + w) == t
    decreases |w|
  {
    if w == [] {
      assert t + w == t;
    } else {
      assert (t + w)[..|t + w| - 1] == t + w[..|w| - 1];
      StripRightOfPadded(t, w[..|w| - 1]);
    }
  }

  /** Stripping twice is stripping once. */
  lemma StripIdempotent(s: string)
    ensures Strip(Strip(s)) == Strip(s)
  {
    var t := Strip(s);
    var _, _ := StripBounds(s);
    assert [] + t + [] == t;
    StripOfPadded([], t, []);
  }

  /** Position of the first occurrence of `c` in `s`. */
  function IndexOf(s: string, c: char): (i: nat)
    requires c in s
    ensures i < |s| && s[i] == c && c !in s[..i]
  {
    if s[0] == c then 0
    else
      assert c in s[1..];
      var j := IndexOf(s[1..], c);
      assert s[..j + 1] == [s[0]] + s[1..][..j];
      j + 1
  }

  /** `'\n'.join(parts)`. */
  function Join(parts: seq<string>): string
  {
    if |parts| == 0 then ""
    else if |parts| == 1 then parts[0]
    else parts[0] + "\n" + Join(parts[1..])
  }

  /** `s.split('\n')`: the pieces between newline characters, always at least one. */
  function Split(s: string): (parts: seq<string>)
    ensures |parts| >= 1
    ensures forall i :: 0 <= i < |parts| ==> '\n' !in parts[i]
    ensures Join(parts) == s
    decreases |s|
  {
    if '\n' !in s then [s]
    else
      var i := IndexOf(s, '\n');
      var rest := Split(s[i + 1..]);
      assert s == s[..i] + "\n" + s[i + 1..];
      [s[..i]] + rest
  }

  /** Splitting a join of newline-free pieces gives the pieces back. */
  lemma {:induction false} SplitJoin(parts: seq<string>)
    requires |parts| >= 1
    requires forall i :: 0 <= i < |parts| ==> '\n' !in parts[i]
    ensures Split(Join(parts)) == parts
    decreases |parts|
  {
    if |parts| > 1 {
      var s := Join(parts);
      var p := parts[0];
      assert s == p + "\n" + Join(parts[1..]);
      assert s[|p|] == '\n';
      assert s[..|p|] == p;
      assert IndexOf(s, '\n') == |p|;
      assert s[|p| + 1..] == Join(parts[1..]);
      SplitJoin(parts[1..]);
    }
  }

  predicate IsAsciiDigit(c: char)
  {
    '0' <= c <= '9'
  }

  /**
   * `str.isdigit` on one character. Below U+0100 the characters it accepts are
   * the ASCII digits and the superscripts one, two and three; the model treats
   * every code point from U+0100 up as a non-digit.
   */
  predicate IsDigitChar(c: char)
  {
    IsAsciiDigit(c) || c == '\U{B2}' || c == '\U{B3}' || c == '\U{B9}'
  }

  /** `s.isdigit()`: non-empty, and every character is a digit. */
  predicate IsDigitString(s: string)
  {
    |s| > 0 && forall i :: 0 <= i < |s| ==> IsDigitChar(s[i])
  }

  predicate AllAsciiDigits(s: string)
  {
    forall i :: 0 <= i < |s| ==> IsAsciiDigit(s[i])
  }

  /** A non-empty string of ASCII digits, which `int()` reads as a base-10 number. */
  predicate IsDecimalString(s: string)
  {
    |s| > 0 && AllAsciiDigits(s)
  }

  function DigitValue(c: char): (d: nat)
    requires IsAsciiDigit(c)
    ensures d < 10
  {
    (c as int) - ('0' as int)
  }

  function DigitChar(d: nat): (c: char)
    requires d < 10
    ensures IsAsciiDigit(c) && DigitValue(c) == d
  {
    ('0' as int + d) as char
  }

  /** The number a string of ASCII digits denotes in base 10; leading zeros are allowed. */
  function DecimalValue(s: string): nat
    requires AllAsciiDigits(s)
    decreases |s|
  {
    if s == [] then 0
    else 10 * DecimalValue(s[..|s| - 1]) + DigitValue(s[|s| - 1])
  }

  /** The shortest base-10 numeral of `n` (what `str(n)` prints); it reads back as `n`. */
  function DecimalString(n: nat): (s: string)
    ensures IsDecimalString(s)
    ensures DecimalValue(s) == n
    ensures s[0] != '0' || s == "0"
    decreases n
  {
    if n < 10 then [DigitChar(n)]
    else
      var p := DecimalString(n / 10);
      var s := p + [DigitChar(n % 10)];
      assert s[..|s| - 1] == p;
      s
  }

  /** A digit string with a non-zero first digit denotes a positive number. */
  lemma {:induction false} LeadingDigitPositive(s: string)
    requires IsDecimalString(s) && s[0] != '0'
    ensures DecimalValue(s) >= 1
    decreases |s|
  {
    if |s| > 1 {
      LeadingDigitPositive(s[..|s| - 1]);
    }
  }

  /** Leading zeros add nothing to the value of a numeral. */
  lemma {:induction false} DecimalValueLeadingZeros(zeros: string, s: string)
    requires forall i :: 0 <= i < |zeros| ==> zeros[i] == '0'
    requires AllAsciiDigits(s)
    ensures AllAsciiDigits(zeros + s)
    ensures DecimalValue(zeros + s) == DecimalValue(s)
    decreases |zeros| + |s|
  {
    if s == [] {
      assert zeros + s == zeros;
      if zeros != [] {
        DecimalValueLeadingZeros(zeros[..|zeros| - 1], []);
        assert zeros[..|zeros| - 1] + [] == zeros[..|zeros| - 1];
      }
    } else {
      var x := zeros + s;
      assert x[..|x| - 1] == zeros + s[..|s| - 1];
      DecimalValueLeadingZeros(zeros, s[..|s| - 1]);
    }
  }

  /** Reading a numeral without superfluous leading zeros and printing it back gives the numeral. */
  lemma {:induction false} DecimalStringOfValue(s: string)
    requires IsDecimalString(s)
    requires s[0] != '0' || |s| == 1
    ensures DecimalString(DecimalValue(s)) == s
    decreases |s|
  {
    var p := s[..|s| - 1];
    var d := DigitValue(s[|s| - 1]);
    if |s| == 1 {
      assert DecimalValue(s) == 10 * DecimalValue([]) + d;
      assert [DigitChar(d)] == s;
    } else {
      LeadingDigitPositive(p);
      DecimalStringOfValue(p);
      var n := DecimalValue(s);
      assert n == 10 * DecimalValue(p) + d;
      assert n / 10 == DecimalValue(p) && n % 10 == d;
      assert p + [DigitChar(d)] == s;
    }
  }
}

=== FILE: window.dfy ===
/**
 * What the live refresh and the export take from the sample buffer: the newest
 * `window_size` samples, or nothing while the buffer is shorter than that, and
 * the clamp of raw ADC readings into the converter's range.
 */
module Window {
  import opened Wrappers
  import opened PySlice
  import opened SampleBuffer

  /** `self.sample_rate`: samples per second. */
  const SampleRate: nat := 1000

  /**
   * `int(self.sample_rate * k)` for a factor `k` of `tenths / 10`, computed
   * exactly and truncated.
   */
  function WindowSize(tenths: nat): (w: nat)
    ensures 10 * w <= SampleRate * tenths < 10 * (w + 1)
  {
    SampleRate * tenths / 10
  }

  /** The live view's window is 800 samples. */
  lemma LiveWindowSize()
    ensures LiveWindow == 800
  {
  }

  /** The export's window is 100 samples. */
  lemma ExportWindowSize()
    ensures ExportWindow == 100
  {
  }

  /** `update_plots` looks at the last 0.8 s of signal. */
  const LiveWindow: nat := WindowSize(8)

  /** `save_all_plots` looks at the last 0.1 s of signal. */
  const ExportWindow: nat := WindowSize(1)

  /**
   * The gate and selection of both plot routines: `None` (the routine returns
   * early) while the buffer holds fewer than `w` samples, otherwise
   * `emg_data[-w:]`, the newest `w` samples in arrival order.
   */
  function LatestWindow(buf: seq<int>, w: nat): (r: Option<seq<int>>)
    ensures r.None? <==> |buf| < w
    ensures r.Some? && w > 0 ==> |r.value| == w && r.value == buf[|buf| - w..]
    ensures r.Some? && w == 0 ==> r.value == buf
  {
    if |buf| < w then None else Some(Tail(buf, w))
  }

  /**
   * The 10000-sample cap never costs a window anything: the window of the
   * buffer is the window of everything appended, for any window up to the cap.
   */
  lemma WindowSurvivesCap(h: seq<int>, w: nat)
    requires 0 < w <= Capacity
    ensures LatestWindow(Retained(h), w) == LatestWindow(h, w)
  {
    var r := Retained(h);
    if |h| >= w {
      assert r[|r| - w..] == h[|h| - w..];
    }
  }

  /**
   * A window never reaches back past the newest `w` samples: samples appended
   * after the first `w` of a batch push every older sample out of the window.
   */
  lemma WindowOfLongBatch(buf: seq<int>, vs: seq<int>, w: nat)
    requires 0 < w <= |vs|
    ensures LatestWindow(buf + vs, w) == Some(vs[|vs| - w..])
  {
    var x := buf + vs;
    assert x[|x| - w..] == vs[|vs| - w..];
  }

  /** The largest reading of the 10-bit ADC. */
  const AdcMax: int := 1023

  predicate InAdcRange(v: int)
  {
    0 <= v <= AdcMax
  }

  /** `np.clip(v, 0, 1023)` on one raw sample. */
  function Clip(v: int): (c: int)
    ensures InAdcRange(c)
    ensures InAdcRange(v) ==> c == v
  {
    if v < 0 then 0 else if v > AdcMax then AdcMax else v
  }

  function Dist(a: int, b: int): nat
  {
    if a < b then b - a else a - b
  }

  /** The clamp moves a sample to the nearest point of the ADC range. */
  lemma ClipIsNearest(v: int, y: int)
    requires InAdcRange(y)
    ensures Dist(Clip(v), v) <= Dist(y, v)
  {
  }

  /** The clamp preserves the order of samples. */
  lemma ClipMonotone(v: int, u: int)
    requires v <= u
    ensures Clip(v) <= Clip(u)
  {
  }

  predicate AllInAdcRange(s: seq<int>)
  {
    forall i :: 0 <= i < |s| ==> InAdcRange(s[i])
  }

  /** `np.clip(raw_data, 0, 1023)` on a whole window, sample by sample. */
  function ClipAll(s: seq<int>): (r: seq<int>)
    ensures |r| == |s|
    ensures AllInAdcRange(r)
    ensures forall i :: 0 <= i < |s| && InAdcRange(s[i]) ==> r[i] == s[i]
    ensures forall i :: 0 <= i < |s| && s[i] < 0 ==> r[i] == 0
    ensures forall i :: 0 <= i < |s| && s[i] > AdcMax ==> r[i] == AdcMax
  {
    seq(|s|, i requires 0 <= i < |s| => Clip(s[i]))
  }

  /** The clamp changes a window exactly when some sample lies outside the ADC range. */
  lemma ClipAllIdentity(s: seq<int>)
    ensures ClipAll(s) == s <==> AllInAdcRange(s)
  {
    if ClipAll(s) == s {
      assert AllInAdcRange(ClipAll(s));
    }
  }

  /** Clamping twice is clamping once. */
  lemma ClipAllIdempotent(s: seq<int>)
    ensures ClipAll(ClipAll(s)) == ClipAll(s)
  {
    ClipAllIdentity(ClipAll(s));
  }
}

=== FILE: wrappers.dfy ===
/** Optional values, used where the program either produces something or does nothing. */
module Wrappers {

  datatype Option<+T> = None | Some(value: T)
}
